=== FILE: README.md ===
# fits2png in Dafny

A model of the two computations at the heart of `fits2png.c`, a converter from
a 1D or 2D FITS image to a 16-bit greyscale PNG file:

- **Section selection** (`getImageToArray`). From the two axis lengths
  `naxes`, an optional requested size `dims` and an optional centre `cens`,
  it computes the first pixel `fpixel` and last pixel `lpixel` of the
  window to read. Both are 1-based and inclusive. Only `fpixel` is clamped
  into the image. The section size `odim1 x odim2` is derived from these
  corners. BITPIX is then mapped to a cfitsio element type and size, and
  the byte count is checked against a 1 GiB budget. Only after that does
  the code allocate and read.
- **Scanline encoding** (the loop in `writeImage`). A row-major buffer of
  16-bit samples, stored bottom-up as FITS rows are, becomes top-down PNG
  scanlines. Each sample is written as its high byte then its low byte,
  the big-endian order of section 7.1 of the PNG specification
  (ISO/IEC 15948:2003).

Modules, one per file:

- `Wrappers` (`wrappers.dfy`): `Option`, used for the NULL pointers.
  `Result` is used for the NULL return of `getImageToArray`.
- `Section` (`section.dfy`): the corner arithmetic and clamping, with C's
  truncating `/` written out as `Half`.
- `Extract` (`extract.dfy`): BITPIX dispatch, the budget, and the
  allocation and read as a trace of effects.
  - Allocation success is a boolean input.
  - `fits_read_subset` is an opaque `Reader` function that gives the value
    at each buffer index.
- `Encoder` (`encoder.dfy`): byte packing, scanlines, row order, the
  loop-shaped methods `WriteRows`/`EmitRow`/`FillRow`, and a PNG reader's
  decoding as the partner of the encoding.
- `Fits2Png` (`fits2png.dfy`): the `naxis` test in `main`, the PNG image
  handed to libpng (a constant 16-bit grey header plus scanlines), and the
  whole-image path `main` takes.

Behaviour as written, where it differs from what one might expect of the
program (the model follows the code):

- `lpixel` is never clamped. If the centre lies past the right or top edge,
  `fpixel` is pulled back to the edge but `lpixel` stays out. The section
  then extends beyond the image and can be wider than the image itself.
  `Section.FarCentreOverrunsImage` gives a 10 x 10 image whose section is
  93 pixels wide. `Section.ClampedAxisExtent` gives the exact rule.
- With no centre, the centre defaults to `d / 2`, where `d` is the window
  size `min(dims, naxes)`, not the requested size. The window then runs
  from 1 to `2 * (d / 2)`, so an odd window size loses one pixel (a
  4-pixel request on a 3-pixel axis included), and a window size of 1
  gives an empty section (`Section.DefaultCentreAxis`).
- Every failure of `getImageToArray` returns the same NULL. The model names
  the failing branch (`UnsupportedBitpix`, `OverBudget`, `AllocFailed`).
  The status set by the read is not inspected, and the buffer is returned
  in any case.

## Model

| member | source | states |
|---|---|---|
| Section.Half | fits2png.c:114-120 | C's `a / 2` truncates toward zero: the remainder is 0 or 1 for `a >= 0`, and 0 or -1 for negative `a` |
| Section.Min | fits2png.c:107-108 | The integer stand-in for `fmin` is no larger than either argument and equals one of them |
| Section.WindowSize | fits2png.c:107-108 | The window size never exceeds the axis length; it is the requested size when that fits, else the axis length |
| Section.Unclamped | fits2png.c:104-128 | Without `dims`, or with a zero entry in it, the corners are `(1,1)` and `naxes` |
| Section.ClampFirst | fits2png.c:129-140 | A clamped first pixel lies in `[1, n]`. It is unchanged when already inside, 1 when below, and `n` when beyond |
| Section.Clamp | fits2png.c:129-140 | After clamping, `fpixel` lies inside the image on both axes, `lpixel` is untouched, and a section that already starts inside is unchanged |
| Section.Select | fits2png.c:104-140 | The selected section starts inside the image and keeps the unclamped `lpixel`; in full-image mode it is `(1,1)..naxes` |
| Section.FullImageExtent | fits2png.c:121-143 | In full-image mode `odim1 = naxes[0]` and `odim2 = naxes[1]`, and the section is non-empty |
| Section.AxisSpan | fits2png.c:117-120 | Before clamping, a window of size `d >= 0` spans exactly `d` pixels for any centre (`d/2 + (d+1)/2 = d`) |
| Section.WindowedUnclampedExtent | fits2png.c:105-120 | In windowed mode with positive sizes, the unclamped section spans `min(dims, naxes)` on each axis, between 1 and the axis length |
| Section.DefaultCentreAxis | fits2png.c:113-131 | With no centre, the unclamped origin is 1 for an even size and 0 for an odd one; clamped it is 1, and the last pixel is `2*(d/2)` |
| Section.DefaultCentreSection | fits2png.c:113-143 | With no centre the section starts at `(1,1)` and measures `2*(d/2)` on each axis |
| Section.ClampedAxisExtent | fits2png.c:117-143 | On one axis the clamped size equals `d` iff the origin was inside the image. It is smaller iff the origin was below 1, and larger iff it was past `n`. It is at least 1 iff `lpixel >= 1` |
| Section.WindowedNonEmptyIff | fits2png.c:117-143 | A windowed request with positive sizes gives a non-empty section exactly when `lpixel >= 1` on both axes |
| Section.NegativeAxisExtent | fits2png.c:105-143 | On an axis with a negative window size, which the non-zero test lets through, the extent is positive exactly when `lpixel >= n` |
| Section.WindowedNonEmptyAnySize | fits2png.c:105-143 | A windowed request of any non-zero sizes gives a non-empty section exactly when, per axis, `lpixel >= 1` for a positive size and `lpixel >= naxes` for a negative one |
| Section.NegativeSizeEmptySection | fits2png.c:105-143 | A -4 x -4 request centred on (5, 5) of a 10 x 10 image gives corners (7, 7)..(3, 3), an empty section although `lpixel` is inside the image |
| Section.FarCentreOverrunsImage | fits2png.c:129-143 | A 4 x 4 request centred on (100, 5) in a 10 x 10 image reads columns 10..102, 93 pixels wide |
| Section.NegativeCentreInvertsSection | fits2png.c:105-144 | A 4 x 4 window centred on (-100, -100) of a 10 x 10 image clamps `fpixel` to (1, 1) but leaves `lpixel` at (-98, -98): the section is empty, yet the product of its extents is 9604 |
| Extract.TypeOfBitpix | fits2png.c:146-177 | BITPIX is accepted exactly for 8, 16, -16, 32, 64, -32 and -64, and the accepted type carries that same code |
| Extract.BitpixRoundTrip | fits2png.c:146-177 | Every element type is recovered from its own BITPIX code |
| Extract.ElemSize | fits2png.c:146-174 | Every element size is at least one byte and equals `abs(BITPIX) / 8`: 1, 2, 2, 4, 8, 4, 8 |
| Extract.GetImageToArray | fits2png.c:88-190 | See the list under the table |
| Extract.FullImageExtraction | fits2png.c:121-187 | For the whole image with a supported type that fits the budget and a successful allocation, the result is the full `naxes`, read from `(1,1)` |
| Extract.BudgetBoundary | fits2png.c:178-181 | A whole image of 64-bit integers is refused exactly when it has more than 2^27 pixels |
| Encoder.PackSample | fits2png.c:272-273 | A sample becomes two bytes with `hi*256 + lo == s mod 65536` |
| Encoder.UnpackSample | fits2png.c:272-273 | Reading two bytes back gives a value in `[0, 65535]` |
| Encoder.UnpackPackSample | fits2png.c:272-273 | Every sample in `[0, 65535]` is recovered exactly from its two bytes |
| Encoder.UnpackPackSigned | fits2png.c:272-273 | Every C `short` is recovered through the two's-complement reading of its two bytes |
| Encoder.Low16 | fits2png.c:272-273 | The part of a sample that survives packing is a value in `[0, 65535]` congruent to it modulo 65536 |
| Encoder.PackSamples | fits2png.c:268-277 | A row of samples packs to twice as many bytes; sample `x` gives its high byte at `2x` and its low byte at `2x+1` |
| Encoder.UnpackPackSamples | fits2png.c:268-277 | Unpacking packed samples gives back the low 16 bits of each sample, in order |
| Encoder.RowStartProduct | fits2png.c:271-273 | Row `y` starts at buffer index `y * width` |
| Encoder.PackRow | fits2png.c:258-279 | Each scanline is `2*width` bytes, and bytes from `2*cols` onward are zero, as `calloc` left them |
| Encoder.PackRowLayout | fits2png.c:268-273 | Sample `x < cols` of row `y` is buffer index `y*width + x`, written at scanline bytes `2x` (high) and `2x+1` (low) |
| Encoder.EncodeRowsBelow | fits2png.c:265-280 | The scanlines of rows below `y` are emitted in descending source row: output row `i` is source row `y-1-i` |
| Encoder.EncodeImage | fits2png.c:265-280 | An image gives exactly `height` scanlines of `2*width` bytes, top row first: scanline `r` is source row `height-1-r` |
| Encoder.DecodeEncodeRowsBelow | fits2png.c:265-280 | Decoding the scanlines of rows below `y` restores the first `y` rows of the buffer, to 16 bits |
| Encoder.DecodeEncodeImage | fits2png.c:265-280 | With the full column bound, decoding the scanlines restores the low 16 bits of the whole buffer |
| Encoder.DecodeEncodeImageExact | fits2png.c:265-280 | With the full column bound and samples in `[0, 65535]`, decoding the scanlines restores the buffer exactly |
| Encoder.SourceRows | fits2png.c:267 | A descending row loop from `top` visits `top+1` rows, the `i`-th being `top - i` |
| Encoder.SourceRowLoopOverruns | fits2png.c:267-279 | The loop as written emits `height+1` scanlines, the first naming row `height`; from width 3, where the column bound lets a column through, that first pass reads index `height*width`, past the end of the buffer |
| Encoder.CorrectedRowLoop | fits2png.c:267-279 | Started at `height-1`, the loop visits exactly the buffer's `height` rows in the order the encoder emits them |
| Encoder.SourceCols | fits2png.c:269 | The C column bound is at most the width, is `width - 2` from width 2 on, and 0 below width 2 |
| Encoder.SourceColumnsStayZero | fits2png.c:258-273 | With the C column bound, the last four bytes of every scanline are zero whatever the samples |
| Encoder.TruncatedColumnsLoseSamples | fits2png.c:258-279 | With the C bound the row `[1, 2, 3]` reads back as `[1, 0, 0]`; with the full width it reads back as `[1, 2, 3]` |
| Encoder.ThreeByTwoExample | fits2png.c:265-280 | The 3 x 2 image `[10,20,30]` (bottom) `[40,50,60]` (top) gives scanlines `[0,40,0,50,0,60]` then `[0,10,0,20,0,30]` |
| Encoder.FillRow | fits2png.c:268-277 | The column loop writes sample `x` into bytes `2x` and `2x+1` of the reused row buffer and leaves bytes from `2*cols` on untouched |
| Encoder.EmitRow | fits2png.c:267-279 | One pass of the row loop turns the reused row buffer, zero past `2*cols`, into the scanline of row `y` |
| Encoder.WriteRows | fits2png.c:258-280 | The loop with one `calloc`ed row buffer, rows from `height-1` down to 0, emits exactly the scanlines `EncodeImage` describes |
| Fits2Png.SupportedNaxis | fits2png.c:55 | A non-negative `naxis` is accepted exactly when it is 1 or 2; a negative one passes the test |
| Fits2Png.WriteImage | fits2png.c:238-280 | With the row loop corrected to start at `height-1`, the PNG image has the given size, bit depth 16, colour type grey and the given title, exactly `height` scanlines, and every scanline is `width*16/8` bytes long; the C column bound is the instance `cols = width-2` |
| Fits2Png.WholeImageRoundTrip | fits2png.c:59-67 | For a whole 16-bit image (signed or unsigned) extraction succeeds with the image's own size, and, with both writeImage loops corrected (rows from `height-1`, columns up to `width`), the written PNG reads back as the low 16 bits of every extracted sample. The C code as written does not do this (see Findings) |

`Extract.GetImageToArray` states:

- Success holds exactly when BITPIX is supported, `odim1*odim2*elemSize <= 1 GiB` and the allocation succeeds.
- On success the buffer holds `odim1*odim2` elements from the read.
- The size is always stored.
- An unsupported BITPIX or an over-budget size fails with no allocation and no read.
- Every allocation asks for exactly `odim1*odim2*elemSize` bytes.
- A supported BITPIX within budget whose allocation fails gives `AllocFailed` after exactly that one allocation and no read.
- A read happens only on success, and only after the allocation.

## Left out

- Extract.GetImageToArray: requires a non-empty section (`odim1, odim2 >= 1`), which windowed mode does not guarantee; `Section.WindowedNonEmptyAnySize` states exactly when that case arises, for sizes of either sign (`Section.WindowedNonEmptyIff` is its form for positive sizes). The C code's behaviour on an empty section is not modelled. When exactly one of `odim1`, `odim2` is at most 0, the byte count is zero or negative; a negative count passes the budget test and reaches `malloc` converted to a huge `size_t`. When both are negative the pixel count is positive (`Section.NegativeCentreInvertsSection`: a 4 x 4 window centred on (-100, -100) of a 10 x 10 image gives -98 x -98, 9604 pixels). A 16-bit image then passes the budget, is allocated, is read with `lpixel < fpixel`, and a non-NULL buffer is returned with negative sizes.
- Section.Select: the centre `cens` is `double` in C and truncated to `int`. The model takes the centre as that integer.
- Section.ValidAxes: both axis lengths are taken to be at least 1. In `getImageToArray`, `naxes` is an uninitialised local (fits2png.c:95), unlike `main`'s `{1,1}` (fits2png.c:42), and `fits_get_img_size` fills only as many entries as the image has axes. So for a 1D image nothing in the source sets `naxes[1]`. Treating it as 1 is an assumption of the model about a value the source never sets.
- Extract.GetImageToArray: the contents of the buffer come from an opaque reader function. The read's status and any cfitsio error are not modelled, because `fits_read_subset` is foreign code.
- Extract.ElemSize: uses the conventional C sizes (char 1, short 2, int 4, long long 8, float 4, double 8). Platform variance of `sizeof` is not modelled.
- Integer widths: `odim1 * odim2` and `totbytes` are mathematical integers. C `int`/`long` overflow is not modelled.
- Encoder.HighByte: `>>` on a negative `short` is implementation-defined in C. It is modelled as an arithmetic shift (floor division by 256).
- Encoder: takes a buffer of 16-bit sample values. `main` hands `writeImage` the raw buffer of any element type as `short *`; that memory aliasing is not modelled.
- Encoder: the extra scanline the C loop emits for row `height` is not modelled byte by byte. From width 3 it reads outside the buffer and its contents are undefined; only the fact that it is read is modelled (`Encoder.SourceRowLoopOverruns`). At width 1 or 2 no column is read and it is the all-zero `calloc` row.
- `main`: the command-line handling, `fits_open_file`, `fits_get_img_param`, `fits_close_file` and error reporting are left out as cfitsio I/O. So is the write that goes ahead after a NULL buffer. Only the `naxis` test is kept.
- `writeImage`: `fopen`, the `png_create_*` calls, `setjmp`, `png_write_info`/`row`/`end`, the `goto finalise` cleanup and the returned code are left out as libpng and file I/O. The header is the constant 16-bit grey of `Fits2Png.WriteImage`.
- `setRGB`: left out. It is floating-point code and never called, since its only call is commented out.
- `writeImage`: the `calloc` of the row buffer (line 258) is not checked in C, and a failure would dereference NULL at line 272. The model takes that allocation as always succeeding.
- `writeImage`: the `printf` calls at lines 261-263 read `buffer[1]` and `buffer[width]`. For a one-row image (any 1D image) `buffer[width]` is past the end, and so is `buffer[1]` for a 1 x 1 image. These out-of-bounds reads are not modelled.
- The other debug `printf` calls are left out as output only. This includes the one with missing arguments and the `row[x] == 1701` test, which can never be true for a byte.

## Findings

| source | as written | input that shows it | evidently intended | confidence | as-written member | corrected member |
|---|---|---|---|---|---|---|
| fits2png.c:267 | the row loop starts at `y = height` | any image with `width >= 3`, e.g. 3 x 2: three scanlines are emitted and the first reads index 6 of a buffer with indices 0..5 | start at `y = height - 1`, emitting exactly `height` scanlines | high; not executed | Encoder.SourceRowLoopOverruns | Encoder.WriteRows |
| fits2png.c:269 | the column loop stops at `x < width - 2` | a 3 x 1 image `[1, 2, 3]` reads back as `[1, 0, 0]` | `x < width`, so every sample is written | high; not executed | Encoder.TruncatedColumnsLoseSamples | Encoder.DecodeEncodeImage |

=== FILE: encoder.dfy ===
/**
 * The scanline loop of writeImage in fits2png.c: 16-bit samples, stored
 * bottom-up in row-major order, become PNG scanlines of a 16-bit greyscale
 * image, top-down, each sample as its high byte followed by its low byte
 * (the big-endian order of section 7.1 of the PNG specification,
 * ISO/IEC 15948:2003).
 *
 * Two places where this model differs from the C loop on purpose are kept
 * apart as named members: the loop starts at `y = height` (`SourceRows`,
 * `SourceRowLoopOverruns`)
 * and stops its columns at `width - 2` (`SourceCols`). The encoder itself
 * visits rows `height - 1` down to 0 and takes the column bound as a
 * parameter `cols <= width`, so both the C bound and the full width can be
 * instantiated.
 */
module Encoder {

  /** A PNG byte. */
  newtype byte = b: int | 0 <= b < 256

  /** `(png_byte)(s >> 8)`: the shift is arithmetic, so negative samples shift in ones. */
  function HighByte(s: int): byte {
    ((s / 256) % 256) as byte
  }

  /** `(png_byte)(s & 0xFF)`. */
  function LowByte(s: int): byte {
    (s % 256) as byte
  }

  /** The two bytes written for one sample. */
  function PackSample(s: int): (r: seq<byte>)
    ensures |r| == 2
    ensures r[0] as int * 256 + r[1] as int == s % 65536
  {
    [HighByte(s), LowByte(s)]
  }

  /** What a PNG reader takes from two bytes of a 16-bit greyscale sample. */
  function UnpackSample(hi: byte, lo: byte): (v: int)
    ensures 0 <= v < 65536
  {
    hi as int * 256 + lo as int
  }

  /** Every 16-bit unsigned sample comes back unchanged from its two bytes. */
  lemma UnpackPackSample(s: int)
    requires 0 <= s < 65536
    ensures UnpackSample(PackSample(s)[0], PackSample(s)[1]) == s
  {
  }

  /** A signed 16-bit sample (a C `short`) comes back through its two's-complement reading. */
  lemma UnpackPackSigned(s: int)
    requires -32768 <= s < 32768
    ensures var v := UnpackSample(PackSample(s)[0], PackSample(s)[1]);
            (if v >= 32768 then v - 65536 else v) == s
  {
  }

  /** The low 16 bits of every sample, the part the encoding keeps. */
  function Low16(s: seq<int>): (r: seq<int>)
    ensures |r| == |s|
    ensures forall i :: 0 <= i < |s| ==> 0 <= r[i] < 65536 && (r[i] - s[i]) % 65536 == 0
  {
    seq(|s|, i requires 0 <= i < |s| => s[i] % 65536)
  }

  /** The bytes of consecutive samples, two per sample. */
  function PackSamples(s: seq<int>): (r: seq<byte>)
    ensures |r| == 2 * |s|
    ensures forall x :: 0 <= x < |s| ==> r[2 * x] == HighByte(s[x]) && r[2 * x + 1] == LowByte(s[x])
  {
    if |s| == 0 then [] else PackSample(s[0]) + PackSamples(s[1..])
  }

  /** A PNG reader's view of a 16-bit greyscale scanline: one sample per byte pair. */
  function UnpackSamples(row: seq<byte>): (s: seq<int>)
    requires |row| % 2 == 0
    ensures |s| == |row| / 2
  {
    if |row| == 0 then [] else [UnpackSample(row[0], row[1])] + UnpackSamples(row[2..])
  }

  /** Packing then unpacking keeps exactly the low 16 bits of every sample. */
  lemma {:induction false} UnpackPackSamples(s: seq<int>)
    ensures UnpackSamples(PackSamples(s)) == Low16(s)
  {
    if |s| > 0 {
      UnpackPackSamples(s[1..]);
      var p := PackSamples(s);
      assert p[2..] == PackSamples(s[1..]);
      assert UnpackSample(p[0], p[1]) == s[0] % 65536;
      assert Low16(s) == [s[0] % 65536] + Low16(s[1..]);
    }
  }

  /** `n` zero bytes, as left by `calloc`. */
  function Zeros(n: nat): (r: seq<byte>)
    ensures |r| == n
    ensures forall k :: 0 <= k < n ==> r[k] == 0
  {
    seq(n, _ => 0)
  }

  /**
   * The index of the first sample of row `y` in a row-major buffer of rows
   * `width` samples wide: `y * width`, counted row by row.
   */
  function RowStart(y: nat, width: nat): nat {
    if y == 0 then 0 else RowStart(y - 1, width) + width
  }

  /** Row `y` starts at index `y * width`, the offset the C code computes. */
  lemma {:induction false} RowStartProduct(y: nat, width: nat)
    ensures RowStart(y, width) == y * width
  {
    if y > 0 {
      RowStartProduct(y - 1, width);
      assert (y - 1) * width + width == y * width;
    }
  }

  /** Source row `y` exists in a row-major buffer of rows `width` samples wide. */
  predicate RowInBuffer(buffer: seq<int>, width: nat, y: nat) {
    RowStart(y, width) + width <= |buffer|
  }

  /** Row `j` ends no later than row `y` begins, for `j < y`. */
  lemma {:induction false} RowBefore(j: nat, y: nat, width: nat)
    requires j < y
    ensures RowStart(j, width) + width <= RowStart(y, width)
    decreases y - j
  {
    if j < y - 1 {
      RowBefore(j, y - 1, width);
    }
  }

  /** Every row below `y` lies in a buffer holding the first `y` rows. */
  lemma RowsBelowInBuffer(buffer: seq<int>, width: nat, y: nat)
    requires RowStart(y, width) <= |buffer|
    ensures forall j :: 0 <= j < y ==> RowInBuffer(buffer, width, j)
  {
    forall j | 0 <= j < y
      ensures RowInBuffer(buffer, width, j)
    {
      RowBefore(j, y, width);
    }
  }

  /**
   * The scanline for source row `y`: `2 * width` bytes, the first `cols`
   * samples of the row packed big-endian, the rest still zero from `calloc`
   * (the byte layout is `PackRowLayout`).
   */
  function PackRow(buffer: seq<int>, width: nat, y: nat, cols: nat): (row: seq<byte>)
    requires cols <= width && RowInBuffer(buffer, width, y)
    ensures |row| == 2 * width
    ensures forall k :: 2 * cols <= k < 2 * width ==> row[k] == 0
  {
    var start := RowStart(y, width);
    PackSamples(buffer[start .. start + cols]) + Zeros(2 * (width - cols))
  }

  /**
   * Sample `x < cols` of source row `y` sits at `y * width + x` in the
   * buffer and becomes bytes `2 * x` (high) and `2 * x + 1` (low) of the
   * scanline.
   */
  lemma PackRowLayout(buffer: seq<int>, width: nat, y: nat, cols: nat)
    requires cols <= width && RowInBuffer(buffer, width, y)
    ensures RowStart(y, width) == y * width
    ensures var row := PackRow(buffer, width, y, cols);
            forall x :: 0 <= x < cols ==>
              && row[2 * x] == HighByte(buffer[y * width + x])
              && row[2 * x + 1] == LowByte(buffer[y * width + x])
  {
    RowStartProduct(y, width);
  }

  /**
   * The scanlines of source rows `y - 1` down to 0, emitted as the row loop
   * does: the scanline of row `y - 1`, then those of the rows below it.
   * PNG rows run top-down and FITS rows bottom-up, so output row `i` is
   * source row `y - 1 - i`.
   */
  function EncodeRowsBelow(buffer: seq<int>, width: nat, y: nat, cols: nat): (rows: seq<seq<byte>>)
    requires cols <= width && RowStart(y, width) <= |buffer|
    ensures |rows| == y
    ensures forall j :: 0 <= j < y ==> RowInBuffer(buffer, width, j)
    ensures forall i :: 0 <= i < y ==> rows[i] == PackRow(buffer, width, y - 1 - i, cols)
  {
    RowsBelowInBuffer(buffer, width, y);
    if y == 0 then []
    else [PackRow(buffer, width, y - 1, cols)] + EncodeRowsBelow(buffer, width, y - 1, cols)
  }

  /** Dropping the top scanline leaves the scanlines of the rows below it. */
  lemma EncodeRowsBelowTail(buffer: seq<int>, width: nat, y: nat, cols: nat)
    requires cols <= width && RowStart(y, width) <= |buffer| && y >= 1
    ensures RowStart(y - 1, width) <= |buffer|
    ensures EncodeRowsBelow(buffer, width, y, cols)[1..] == EncodeRowsBelow(buffer, width, y - 1, cols)
  {
  }

  /**
   * All scanlines of a `width x height` image: exactly `height` rows of
   * `2 * width` bytes, top row first, so that scanline `r` is the packing of
   * source row `height - 1 - r`.
   */
  function EncodeImage(buffer: seq<int>, width: nat, height: nat, cols: nat): (rows: seq<seq<byte>>)
    requires cols <= width && |buffer| == width * height
    ensures |rows| == height
    ensures forall r :: 0 <= r < height ==> |rows[r]| == 2 * width
    ensures forall j :: 0 <= j < height ==> RowInBuffer(buffer, width, j)
    ensures forall r :: 0 <= r < height ==> rows[r] == PackRow(buffer, width, height - 1 - r, cols)
  {
    RowStartProduct(height, width);
    EncodeRowsBelow(buffer, width, height, cols)
  }

  /**
   * A PNG reader's view of the scanlines: the samples of every row, put
   * back into bottom-up order.
   */
  function DecodeImage(rows: seq<seq<byte>>): seq<int>
    requires forall r :: 0 <= r < |rows| ==> |rows[r]| % 2 == 0
  {
    if |rows| == 0 then [] else DecodeImage(rows[1..]) + UnpackSamples(rows[0])
  }

  /**
   * Round trip over the full width: decoding the scanlines gives back the
   * low 16 bits of every sample of rows below `y`, in their original order.
   */
  lemma {:induction false} DecodeEncodeRowsBelow(buffer: seq<int>, width: nat, y: nat)
    requires RowStart(y, width) <= |buffer|
    ensures DecodeImage(EncodeRowsBelow(buffer, width, y, width)) == Low16(buffer[.. RowStart(y, width)])
  {
    if y > 0 {
      var rows := EncodeRowsBelow(buffer, width, y, width);
      var lo := RowStart(y - 1, width);
      var hi := RowStart(y, width);
      EncodeRowsBelowTail(buffer, width, y, width);
      DecodeEncodeRowsBelow(buffer, width, y - 1);
      DecodeTopRow(buffer, width, y);
      DecodeCons(rows);
      Low16Split(buffer, lo, hi);
    }
  }

  /** Decoding peels off the top scanline, whose samples go last. */
  lemma DecodeCons(rows: seq<seq<byte>>)
    requires |rows| >= 1 && forall r :: 0 <= r < |rows| ==> |rows[r]| % 2 == 0
    ensures DecodeImage(rows) == DecodeImage(rows[1..]) + UnpackSamples(rows[0])
  {
  }

  /** `Low16` of a prefix is `Low16` of its two parts. */
  lemma Low16Split(s: seq<int>, lo: nat, hi: nat)
    requires lo <= hi <= |s|
    ensures Low16(s[.. hi]) == Low16(s[.. lo]) + Low16(s[lo .. hi])
  {
    assert s[.. hi] == s[.. lo] + s[lo .. hi];
    Low16Append(s[.. lo], s[lo .. hi]);
  }

  /** The top scanline of rows below `y` decodes to row `y - 1`, to 16 bits. */
  lemma DecodeTopRow(buffer: seq<int>, width: nat, y: nat)
    requires RowStart(y, width) <= |buffer| && y >= 1
    ensures RowStart(y - 1, width) <= RowStart(y, width)
    ensures UnpackSamples(EncodeRowsBelow(buffer, width, y, width)[0]) ==
            Low16(buffer[RowStart(y - 1, width) .. RowStart(y, width)])
  {
    var top := buffer[RowStart(y - 1, width) .. RowStart(y, width)];
    assert EncodeRowsBelow(buffer, width, y, width)[0] == PackSamples(top) by {
      assert Zeros(0) == [];
    }
    UnpackPackSamples(top);
  }

  /** `Low16` works sample by sample, so it distributes over concatenation. */
  lemma Low16Append(a: seq<int>, b: seq<int>)
    ensures Low16(a + b) == Low16(a) + Low16(b)
  {
  }

  /** `Low16` leaves samples already in `[0, 65535]` unchanged. */
  lemma Low16Identity(s: seq<int>)
    requires forall i :: 0 <= i < |s| ==> 0 <= s[i] < 65536
    ensures Low16(s) == s
  {
  }

  /**
   * Round trip for the whole image over the full width: decoding the
   * scanlines restores the buffer, to 16 bits.
   */
  lemma DecodeEncodeImage(buffer: seq<int>, width: nat, height: nat)
    requires |buffer| == width * height
    ensures DecodeImage(EncodeImage(buffer, width, height, width)) == Low16(buffer)
  {
    RowStartProduct(height, width);
    DecodeEncodeRowsBelow(buffer, width, height);
    assert buffer[.. RowStart(height, width)] == buffer;
  }

  /** With samples already in `[0, 65535]` the round trip is exact. */
  lemma DecodeEncodeImageExact(buffer: seq<int>, width: nat, height: nat)
    requires |buffer| == width * height
    requires forall i :: 0 <= i < |buffer| ==> 0 <= buffer[i] < 65536
    ensures DecodeImage(EncodeImage(buffer, width, height, width)) == buffer
  {
    DecodeEncodeImage(buffer, width, height);
    Low16Identity(buffer);
  }

  /**
   * The rows a `for (y = top; y >= 0; y--)` loop visits, in order. The C
   * loop starts at `top = height`; the encoder above starts at
   * `top = height - 1`.
   */
  function SourceRows(top: int): (ys: seq<int>)
    ensures |ys| == if top < 0 then 0 else top + 1
    ensures forall i :: 0 <= i < |ys| ==> ys[i] == top - i
    decreases top + 1
  {
    if top < 0 then [] else [top] + SourceRows(top - 1)
  }

  /**
   * As written, the row loop of writeImage runs from `y = height`: it emits
   * `height + 1` scanlines, and the first names row `height`, which lies
   * past the end of the buffer. From width 3 the C column bound lets at
   * least one column through, so that first pass reads index
   * `height * width`, the first index past the buffer.
   */
  lemma SourceRowLoopOverruns(buffer: seq<int>, width: nat, height: nat)
    requires |buffer| == width * height && width >= 3
    ensures |SourceRows(height)| == height + 1
    ensures SourceRows(height)[0] == height
    ensures !RowInBuffer(buffer, width, height)
    ensures SourceCols(width) >= 1 && RowStart(height, width) >= |buffer|
  {
    RowStartProduct(height, width);
  }

  /**
   * Started at `height - 1`, the loop visits exactly the `height` rows of
   * the buffer, top row first, which is the order `EncodeImage` emits.
   */
  lemma CorrectedRowLoop(buffer: seq<int>, width: nat, height: nat, cols: nat)
    requires cols <= width && |buffer| == width * height
    ensures |SourceRows(height - 1)| == height
    ensures forall i :: 0 <= i < height ==>
      && 0 <= SourceRows(height - 1)[i] < height
      && RowInBuffer(buffer, width, SourceRows(height - 1)[i])
      && EncodeImage(buffer, width, height, cols)[i] == PackRow(buffer, width, SourceRows(height - 1)[i], cols)
  {
    var ys := SourceRows(height - 1);
    var rows := EncodeImage(buffer, width, height, cols);
    forall i | 0 <= i < height
      ensures 0 <= ys[i] < height && RowInBuffer(buffer, width, ys[i])
      ensures EncodeImage(buffer, width, height, cols)[i] == PackRow(buffer, width, ys[i], cols)
    {
      assert ys[i] == height - 1 - i;
      assert RowInBuffer(buffer, width, height - 1 - i);
    }
  }

  /** The column bound of the C loop, `x < width - 2`: no columns at all below width 2. */
  function SourceCols(width: nat): (cols: nat)
    ensures cols <= width
    ensures width >= 2 ==> cols + 2 == width
    ensures width < 2 ==> cols == 0
  {
    if width >= 2 then width - 2 else 0
  }

  /**
   * With the C column bound, the last four bytes of every scanline of an
   * image at least 2 wide stay zero, whatever the samples.
   */
  lemma SourceColumnsStayZero(buffer: seq<int>, width: nat, height: nat)
    requires |buffer| == width * height && width >= 2
    ensures var rows := EncodeImage(buffer, width, height, SourceCols(width));
            forall r, k :: 0 <= r < height && 2 * width - 4 <= k < 2 * width ==> rows[r][k] == 0
  {
  }

  /**
   * The C column bound loses samples: a single row `[1, 2, 3]` decodes back
   * as `[1, 0, 0]`, where the full width gives `[1, 2, 3]`.
   */
  lemma TruncatedColumnsLoseSamples()
    ensures DecodeImage(EncodeImage([1, 2, 3], 3, 1, SourceCols(3))) == [1, 0, 0]
    ensures DecodeImage(EncodeImage([1, 2, 3], 3, 1, 3)) == [1, 2, 3]
  {
    var buffer := [1, 2, 3];
    var rows := EncodeImage(buffer, 3, 1, SourceCols(3));
    assert RowStart(0, 3) == 0;
    assert buffer[0 .. 1] == [1];
    assert PackSamples([1]) == [0, 1];
    assert rows[0] == [0, 1] + Zeros(4);
    assert rows[0] == [0, 1, 0, 0, 0, 0];
    assert UnpackSamples(rows[0][4..]) == [0];
    assert UnpackSamples(rows[0][2..]) == [0, 0];
    assert UnpackSamples(rows[0]) == [1, 0, 0];
    assert rows[1..] == [];
    DecodeEncodeImageExact(buffer, 3, 1);
  }

  /**
   * A 3 x 2 image whose bottom row is `[10, 20, 30]` and top row
   * `[40, 50, 60]` gives two 6-byte scanlines, the top row first.
   */
  lemma ThreeByTwoExample()
    ensures EncodeImage([10, 20, 30, 40, 50, 60], 3, 2, 3) ==
            [[0, 40, 0, 50, 0, 60], [0, 10, 0, 20, 0, 30]]
  {
    var buffer := [10, 20, 30, 40, 50, 60];
    var rows := EncodeImage(buffer, 3, 2, 3);
    ExampleRow(buffer, 1, [40, 50, 60]);
    ExampleRow(buffer, 0, [10, 20, 30]);
    assert rows == [rows[0], rows[1]];
  }

  /** A full row of three samples below 256 packs to a zero high byte before each sample. */
  lemma ExampleRow(buffer: seq<int>, y: nat, samples: seq<int>)
    requires |samples| == 3 && RowInBuffer(buffer, 3, y)
    requires buffer[RowStart(y, 3) .. RowStart(y, 3) + 3] == samples
    requires forall i :: 0 <= i < 3 ==> 0 <= samples[i] < 256
    ensures PackRow(buffer, 3, y, 3) == [0, samples[0] as byte, 0, samples[1] as byte, 0, samples[2] as byte]
  {
    var row := PackRow(buffer, 3, y, 3);
    assert row == PackSamples(samples) + [];
    assert samples[1..][1..] == [samples[2]];
  }

  /**
   * A scanline buffer that holds the packed first `cols` samples of row `y`
   * and zeros after them is the scanline `PackRow` describes.
   */
  lemma RowMatches(row: seq<byte>, buffer: seq<int>, width: nat, y: nat, cols: nat)
    requires cols <= width && RowInBuffer(buffer, width, y)
    requires |row| == 2 * width
    requires forall j :: 0 <= j < cols ==>
      row[2 * j] == HighByte(buffer[RowStart(y, width) + j]) &&
      row[2 * j + 1] == LowByte(buffer[RowStart(y, width) + j])
    requires forall k :: 2 * cols <= k < 2 * width ==> row[k] == 0
    ensures row == PackRow(buffer, width, y, cols)
  {
    var target := PackRow(buffer, width, y, cols);
    var start := RowStart(y, width);
    var samples := buffer[start .. start + cols];
    forall k | 0 <= k < 2 * cols
      ensures row[k] == target[k]
    {
      var j := k / 2;
      assert samples[j] == buffer[start + j];
      if k % 2 == 0 {
        assert k == 2 * j;
      } else {
        assert k == 2 * j + 1;
      }
    }
  }

  /**
   * The column loop of writeImage for one row: `cols` samples from `start`
   * written into the reused row buffer as high byte, low byte, at
   * positions `pos++`; the bytes past `2 * cols` are not touched.
   */
  method FillRow(row: seq<byte>, buffer: seq<int>, start: nat, cols: nat) returns (filled: seq<byte>)
    requires 2 * cols <= |row| && start + cols <= |buffer|
    ensures |filled| == |row|
    ensures forall j :: 0 <= j < cols ==>
      filled[2 * j] == HighByte(buffer[start + j]) && filled[2 * j + 1] == LowByte(buffer[start + j])
    ensures forall k :: 2 * cols <= k < |row| ==> filled[k] == row[k]
  {
    filled := row;
    var pos := 0;
    var x := 0;
    while x < cols
      invariant 0 <= x <= cols && pos == 2 * x
      invariant |filled| == |row|
      invariant forall j :: 0 <= j < x ==>
        filled[2 * j] == HighByte(buffer[start + j]) && filled[2 * j + 1] == LowByte(buffer[start + j])
      invariant forall k :: 2 * x <= k < |row| ==> filled[k] == row[k]
    {
      filled := filled[pos := HighByte(buffer[start + x])];
      pos := pos + 1;
      filled := filled[pos := LowByte(buffer[start + x])];
      pos := pos + 1;
      x := x + 1;
    }
  }

  /**
   * One pass of the row loop body: the reused row buffer, whose bytes past
   * `2 * cols` are still zero, refilled from source row `y` (`pos` counts
   * from 0 again and the sample index is `y * width + x`).
   */
  method EmitRow(row: seq<byte>, buffer: seq<int>, width: nat, y: nat, cols: nat) returns (filled: seq<byte>)
    requires cols <= width && RowInBuffer(buffer, width, y)
    requires |row| == 2 * width
    requires forall k :: 2 * cols <= k < 2 * width ==> row[k] == 0
    ensures filled == PackRow(buffer, width, y, cols)
  {
    var start := y * width;
    assert start == RowStart(y, width) by {
      RowStartProduct(y, width);
    }
    filled := FillRow(row, buffer, start, cols);
    RowMatches(filled, buffer, width, y, cols);
  }

  /**
   * The scanline loop of writeImage with the row loop started at
   * `height - 1`: one `calloc`ed row buffer of `2 * width` bytes, refilled
   * for each source row from the top down and handed out after each row.
   */
  method WriteRows(buffer: seq<int>, width: nat, height: nat, cols: nat) returns (rows: seq<seq<byte>>)
    requires cols <= width && |buffer| == width * height
    ensures rows == EncodeImage(buffer, width, height, cols)
  {
    ghost var expected := EncodeImage(buffer, width, height, cols);
    var row := Zeros(2 * width);
    rows := [];
    var y := height;
    while y > 0
      invariant 0 <= y <= height
      invariant rows == expected[.. height - y]
      invariant |row| == 2 * width
      invariant forall k :: 2 * cols <= k < 2 * width ==> row[k] == 0
    {
      y := y - 1;
      assert RowInBuffer(buffer, width, y);
      row := EmitRow(row, buffer, width, y, cols);
      assert expected[height - 1 - y] == row;
      rows := rows + [row];
    }
  }
}

=== FILE: extract.dfy ===
/**
 * The rest of getImageToArray in fits2png.c: the BITPIX dispatch to an
 * element type and size, the 1 GiB memory budget, the allocation and the
 * windowed read. Allocation success is an input, and the pixel values the
 * FITS library writes into the buffer come from an opaque reader function.
 */
module Extract {
  import opened Wrappers
  import opened Section

  /** The memory budget: no buffer above 1 GiB is ever requested. */
  const MaxMemory: int := 1024 * 1024 * 1024

  /** The element types the FITS library reads into, one per supported BITPIX. */
  datatype ElemType = TByte | TShort | TUShort | TInt | TLongLong | TFloat | TDouble

  /**
   * The BITPIX code of each element type: the six values of section 4.4.1.1
   * of the FITS Standard 4.0, plus -16 for unsigned 16-bit integers.
   */
  function Bitpix(t: ElemType): int {
    match t
    case TByte => 8
    case TShort => 16
    case TUShort => -16
    case TInt => 32
    case TLongLong => 64
    case TFloat => -32
    case TDouble => -64
  }

  function Abs(n: int): nat {
    if n < 0 then -n else n
  }

  /** The `switch` on BITPIX: the element type, or none for an unsupported code. */
  function TypeOfBitpix(bitpix: int): (r: Option<ElemType>)
    ensures r.Some? <==> bitpix in {8, 16, -16, 32, 64, -32, -64}
    ensures r.Some? ==> Bitpix(r.value) == bitpix
  {
    match bitpix
    case 8 => Some(TByte)
    case 16 => Some(TShort)
    case -16 => Some(TUShort)
    case 32 => Some(TInt)
    case 64 => Some(TLongLong)
    case -32 => Some(TFloat)
    case -64 => Some(TDouble)
    case _ => None
  }

  /** Every element type is found again from its own BITPIX code. */
  lemma BitpixRoundTrip(t: ElemType)
    ensures TypeOfBitpix(Bitpix(t)) == Some(t)
  {
  }

  /**
   * The `sizeof` of each element type in bytes, with the conventional sizes
   * (char 1, short 2, int 4, long long 8, float 4, double 8): in every case
   * the number of bits `|BITPIX|` divided by 8.
   */
  function ElemSize(t: ElemType): (n: nat)
    ensures n >= 1
    ensures 8 * n == Abs(Bitpix(t))
  {
    match t
    case TByte => 1
    case TShort => 2
    case TUShort => 2
    case TInt => 4
    case TLongLong => 8
    case TFloat => 4
    case TDouble => 8
  }

  /** The byte count `odim1 * odim2 * elemSize` of a section. */
  function TotalBytes(s: Corners, t: ElemType): int {
    Extent(s).x * Extent(s).y * ElemSize(t)
  }

  /** Products of positive factors are positive, so a non-empty section needs at least one byte. */
  lemma ProductPositive(a: int, b: int, c: int)
    requires a >= 1 && b >= 1 && c >= 1
    ensures a * b >= 1 && a * b * c >= 1
  {
    assert a * b >= b;
    assert a * b * c >= c;
  }

  /** Why getImageToArray returned NULL. */
  datatype ExtractError = UnsupportedBitpix | OverBudget | AllocFailed

  /** The observable steps of an extraction: the `malloc` and the `fits_read_subset` call. */
  datatype Effect = Malloc(bytes: int) | ReadSubset(elemType: ElemType, section: Corners)

  /** A successful extraction: the section read, its size, the element type and the buffer. */
  datatype Image = Image(section: Corners, odim1: int, odim2: int, elemType: ElemType, samples: seq<int>)

  /**
   * The outcome of getImageToArray, the section size it stores through
   * `odim1` and `odim2` (before any NULL return), and the steps it took.
   */
  datatype Extraction = Extraction(result: Result<Image, ExtractError>, odim: Pair, effects: seq<Effect>)

  /**
   * The opaque windowed read: the value the FITS library stores at index
   * `i` of the buffer, for an element type and section.
   */
  type Reader = (ElemType, Corners, nat) -> int

  /**
   * getImageToArray: select the section, dispatch on BITPIX, check the byte
   * count against the budget, allocate (when `allocOk`) and read. A section
   * with no pixels is excluded: in windowed mode the code does not prevent
   * one, and `WindowedNonEmptyIff` says exactly when it arises.
   */
  function GetImageToArray(naxes: Pair, req: Request, bitpix: int, allocOk: bool, read: Reader): (e: Extraction)
    requires ValidAxes(naxes)
    requires NonEmpty(Select(naxes, req))
    ensures e.odim == Extent(Select(naxes, req)) && e.odim.x >= 1 && e.odim.y >= 1
    ensures e.result.Success? <==>
      && TypeOfBitpix(bitpix).Some?
      && TotalBytes(Select(naxes, req), TypeOfBitpix(bitpix).value) <= MaxMemory
      && allocOk
    ensures e.result.Success? ==>
      var img := e.result.value;
      && img.section == Select(naxes, req)
      && Pair(img.odim1, img.odim2) == e.odim
      && Bitpix(img.elemType) == bitpix
      && img.odim1 * img.odim2 * ElemSize(img.elemType) <= MaxMemory
      && |img.samples| == img.odim1 * img.odim2
      && (forall i :: 0 <= i < |img.samples| ==> img.samples[i] == read(img.elemType, img.section, i))
    ensures TypeOfBitpix(bitpix).None? ==> e.result == Failure(UnsupportedBitpix) && e.effects == []
    ensures TypeOfBitpix(bitpix).Some? && TotalBytes(Select(naxes, req), TypeOfBitpix(bitpix).value) > MaxMemory ==>
      e.result == Failure(OverBudget) && e.effects == []
    ensures forall k :: 0 <= k < |e.effects| && e.effects[k].Malloc? ==> 1 <= e.effects[k].bytes <= MaxMemory
    ensures e.result.Success? ==>
      |e.effects| == 2 && e.effects[0].Malloc? &&
      e.effects[1] == ReadSubset(e.result.value.elemType, e.result.value.section)
    ensures e.result.Failure? ==> |e.effects| <= 1 && forall k :: 0 <= k < |e.effects| ==> e.effects[k].Malloc?
    ensures e.result == Failure(AllocFailed) ==> |e.effects| == 1
    ensures forall k :: 0 <= k < |e.effects| && e.effects[k].Malloc? ==>
      TypeOfBitpix(bitpix).Some? && e.effects[k].bytes == TotalBytes(Select(naxes, req), TypeOfBitpix(bitpix).value)
    ensures TypeOfBitpix(bitpix).Some? && TotalBytes(Select(naxes, req), TypeOfBitpix(bitpix).value) <= MaxMemory && !allocOk ==>
      e.result == Failure(AllocFailed) && e.effects == [Malloc(TotalBytes(Select(naxes, req), TypeOfBitpix(bitpix).value))]
  {
    var section := Select(naxes, req);
    var odim := Extent(section);
    match TypeOfBitpix(bitpix)
    case None => Extraction(Failure(UnsupportedBitpix), odim, [])
    case Some(t) =>
      var totpix := odim.x * odim.y;
      var totbytes := totpix * ElemSize(t);
      ProductPositive(odim.x, odim.y, ElemSize(t));
      if totbytes > MaxMemory then
        Extraction(Failure(OverBudget), odim, [])
      else if !allocOk then
        Extraction(Failure(AllocFailed), odim, [Malloc(totbytes)])
      else
        var samples := seq(totpix, i requires 0 <= i < totpix => read(t, section, i));
        Extraction(Success(Image(section, odim.x, odim.y, t, samples)), odim,
                   [Malloc(totbytes), ReadSubset(t, section)])
  }

  /**
   * Extracting the whole image with a supported BITPIX and a successful
   * allocation gives the full axis lengths whenever they fit the budget.
   */
  lemma FullImageExtraction(naxes: Pair, req: Request, t: ElemType, read: Reader)
    requires ValidAxes(naxes) && !Windowed(req)
    requires naxes.x * naxes.y * ElemSize(t) <= MaxMemory
    ensures NonEmpty(Select(naxes, req))
    ensures var e := GetImageToArray(naxes, req, Bitpix(t), true, read);
            && e.result.Success?
            && e.result.value.odim1 == naxes.x && e.result.value.odim2 == naxes.y
            && e.result.value.section == Corners(Pair(1, 1), naxes)
  {
    FullImageExtent(naxes, req);
    BitpixRoundTrip(t);
  }

  /**
   * A whole image of 64-bit integers is refused exactly when it holds more
   * than 2^27 pixels, the number whose 8-byte elements fill 1 GiB.
   */
  lemma BudgetBoundary(naxes: Pair, req: Request, read: Reader)
    requires ValidAxes(naxes) && !Windowed(req)
    ensures var e := GetImageToArray(naxes, req, 64, true, read);
            e.result.Failure? <==> naxes.x * naxes.y > MaxMemory / 8
  {
    FullImageExtent(naxes, req);
  }
}

=== FILE: fits2png.dfy ===
/**
 * The program level of fits2png.c: the dimensionality test in `main`, the
 * PNG image writeImage produces (a 16-bit greyscale header, an optional
 * title and the scanlines), and the whole-image path `main` takes from
 * extraction to scanlines.
 */
module Fits2Png {
  import opened Wrappers
  import opened Section
  import opened Extract
  import opened Encoder

  /** `main` refuses an image when `naxis > 2 || naxis == 0`. */
  function SupportedNaxis(naxis: int): (ok: bool)
    ensures naxis >= 0 ==> (ok <==> naxis == 1 || naxis == 2)
    ensures naxis < 0 ==> ok
  {
    !(naxis > 2 || naxis == 0)
  }

  /** The only PNG colour type the program writes. */
  datatype ColorType = Gray

  /** What the PNG sink receives: the IHDR fields, the optional title text and the scanlines. */
  datatype PngImage = PngImage(width: nat, height: nat, bitDepth: nat, colorType: ColorType,
                               title: Option<string>, rows: seq<seq<byte>>)

  /**
   * A PNG image whose scanlines match its header: `height` of them, each
   * `width * bitDepth / 8` bytes long for one grey channel.
   */
  predicate ScanlinesFit(png: PngImage) {
    && |png.rows| == png.height
    && forall r :: 0 <= r < |png.rows| ==> 8 * |png.rows[r]| == png.width * png.bitDepth
  }

  /**
   * writeImage with its row loop corrected: a `width x height` 16-bit
   * greyscale PNG image from a row-major buffer, with the scanlines of
   * `EncodeImage`, rows `height - 1` down to 0 (exactly `height` scanlines,
   * not the `height + 1` of the C loop), `cols` samples per row. The C
   * column bound is `cols == SourceCols(width)`.
   */
  function WriteImage(width: nat, height: nat, buffer: seq<int>, title: Option<string>, cols: nat): (png: PngImage)
    requires cols <= width && |buffer| == width * height
    ensures png.width == width && png.height == height && png.title == title
    ensures png.bitDepth == 16 && png.colorType == Gray
    ensures ScanlinesFit(png)
  {
    PngImage(width, height, 16, Gray, title, EncodeImage(buffer, width, height, cols))
  }

  /** A PNG reader's view of a 16-bit greyscale image: its samples, bottom row first. */
  function ReadBack(png: PngImage): seq<int>
    requires forall r :: 0 <= r < |png.rows| ==> |png.rows[r]| % 2 == 0
  {
    DecodeImage(png.rows)
  }

  /**
   * The path `main` takes, with both loops of writeImage corrected (rows
   * from `height - 1`, columns up to `width`, which the C code does not
   * do; see `SourceRowLoopOverruns` and `TruncatedColumnsLoseSamples`): the
   * whole image of a 16-bit BITPIX (signed or unsigned) extracted and
   * written; the PNG image has the image's own size and reads back as the
   * low 16 bits of every extracted sample.
   */
  lemma WholeImageRoundTrip(naxes: Pair, bitpix: int, title: Option<string>, read: Reader)
    requires ValidAxes(naxes)
    requires bitpix == 16 || bitpix == -16
    requires naxes.x * naxes.y * 2 <= MaxMemory
    ensures NonEmpty(Select(naxes, Request(None, None)))
    ensures var e := GetImageToArray(naxes, Request(None, None), bitpix, true, read);
            && e.result.Success?
            && var img := e.result.value;
               && img.odim1 == naxes.x && img.odim2 == naxes.y
               && var png := WriteImage(naxes.x, naxes.y, img.samples, title, naxes.x);
                  && png.width == naxes.x && png.height == naxes.y
                  && ReadBack(png) == Low16(img.samples)
  {
    var req := Request(None, None);
    FullImageExtent(naxes, req);
    var e := GetImageToArray(naxes, req, bitpix, true, read);
    assert TypeOfBitpix(bitpix).Some? && ElemSize(TypeOfBitpix(bitpix).value) == 2;
    var img := e.result.value;
    DecodeEncodeImage(img.samples, naxes.x, naxes.y);
  }
}

=== FILE: section.dfy ===
/**
 * The section-selection arithmetic of getImageToArray in fits2png.c:
 * from the image's axis lengths and an optional requested size and centre,
 * the first pixel (lower left) and last pixel (upper right) of the window
 * to read, 1-based and inclusive, and the output size derived from them.
 */
module Section {
  import opened Wrappers

  /** A pair of per-axis values: axis 1 runs along a row, axis 2 across rows. */
  datatype Pair = Pair(x: int, y: int)

  /** The optional `dims` and `cens` arguments; `None` stands for a NULL pointer. */
  datatype Request = Request(dims: Option<Pair>, cens: Option<Pair>)

  /** The `fpixel` and `lpixel` corners handed to the windowed read. */
  datatype Corners = Corners(fpixel: Pair, lpixel: Pair)

  /** Axis lengths the extraction accepts: both at least 1. */
  predicate ValidAxes(naxes: Pair) {
    naxes.x >= 1 && naxes.y >= 1
  }

  /** C's `a / 2`, which truncates toward zero (Dafny's `/` is Euclidean). */
  function Half(a: int): (q: int)
    ensures a >= 0 ==> 0 <= a - 2 * q <= 1
    ensures a < 0 ==> -1 <= a - 2 * q <= 0
  {
    if a >= 0 then a / 2 else -((-a) / 2)
  }

  /** Integer stand-in for `fmin`. */
  function Min(a: int, b: int): (m: int)
    ensures m <= a && m <= b
    ensures m == a || m == b
  {
    if a <= b then a else b
  }

  /** A window is requested only when `dims` is given and neither entry is 0. */
  predicate Windowed(req: Request) {
    req.dims.Some? && req.dims.value.x != 0 && req.dims.value.y != 0
  }

  /** The window size `dim1 x dim2`: the requested size cut down to the image. */
  function WindowSize(naxes: Pair, dims: Pair): (size: Pair)
    ensures size.x <= naxes.x && size.y <= naxes.y
    ensures dims.x <= naxes.x ==> size.x == dims.x
    ensures dims.y <= naxes.y ==> size.y == dims.y
    ensures naxes.x <= dims.x ==> size.x == naxes.x
    ensures naxes.y <= dims.y ==> size.y == naxes.y
  {
    Pair(Min(dims.x, naxes.x), Min(dims.y, naxes.y))
  }

  /** The centre: the one requested, or else half the window size on each axis. */
  function Centre(size: Pair, cens: Option<Pair>): Pair {
    match cens
    case Some(c) => c
    case None => Pair(Half(size.x), Half(size.y))
  }

  /** First pixel on one axis of a window of size `d` centred on `c`, before clamping. */
  function AxisFirst(c: int, d: int): int {
    c - Half(d + 1) + 1
  }

  /** Last pixel on one axis of a window of size `d` centred on `c`. */
  function AxisLast(c: int, d: int): int {
    c + Half(d)
  }

  /**
   * The corners before clamping: the whole image when no window is
   * requested, else the window of the cut-down size around the centre.
   */
  function Unclamped(naxes: Pair, req: Request): (s: Corners)
    ensures !Windowed(req) ==> s == Corners(Pair(1, 1), naxes)
  {
    if Windowed(req) then
      var size := WindowSize(naxes, req.dims.value);
      var cen := Centre(size, req.cens);
      Corners(Pair(AxisFirst(cen.x, size.x), AxisFirst(cen.y, size.y)),
              Pair(AxisLast(cen.x, size.x), AxisLast(cen.y, size.y)))
    else
      Corners(Pair(1, 1), naxes)
  }

  /** Clamping of one first-pixel coordinate: first raised to 1, then lowered to `n`. */
  function ClampFirst(f: int, n: int): (r: int)
    requires n >= 1
    ensures 1 <= r <= n
    ensures 1 <= f <= n ==> r == f
    ensures f < 1 ==> r == 1
    ensures f > n ==> r == n
  {
    var raised := if f < 1 then 1 else f;
    if raised > n then n else raised
  }

  /** The corners after clamping: only `fpixel` is moved into the image. */
  function Clamp(naxes: Pair, s: Corners): (t: Corners)
    requires ValidAxes(naxes)
    ensures 1 <= t.fpixel.x <= naxes.x && 1 <= t.fpixel.y <= naxes.y
    ensures t.lpixel == s.lpixel
    ensures InsideFirst(naxes, s.fpixel) ==> t == s
  {
    Corners(Pair(ClampFirst(s.fpixel.x, naxes.x), ClampFirst(s.fpixel.y, naxes.y)), s.lpixel)
  }

  /** Whether a first pixel already lies inside the image on both axes. */
  predicate InsideFirst(naxes: Pair, f: Pair) {
    1 <= f.x <= naxes.x && 1 <= f.y <= naxes.y
  }

  /** The section getImageToArray reads: the clamped corners. */
  function Select(naxes: Pair, req: Request): (s: Corners)
    requires ValidAxes(naxes)
    ensures 1 <= s.fpixel.x <= naxes.x && 1 <= s.fpixel.y <= naxes.y
    ensures s.lpixel == Unclamped(naxes, req).lpixel
    ensures !Windowed(req) ==> s == Corners(Pair(1, 1), naxes)
  {
    Clamp(naxes, Unclamped(naxes, req))
  }

  /** The output size `odim1 x odim2` of a section, from its inclusive corners. */
  function Extent(s: Corners): Pair {
    Pair(s.lpixel.x - s.fpixel.x + 1, s.lpixel.y - s.fpixel.y + 1)
  }

  /** A section with at least one pixel on each axis. */
  predicate NonEmpty(s: Corners) {
    Extent(s).x >= 1 && Extent(s).y >= 1
  }

  /** Without a window request the output is the whole image. */
  lemma FullImageExtent(naxes: Pair, req: Request)
    requires ValidAxes(naxes)
    requires !Windowed(req)
    ensures Extent(Select(naxes, req)) == naxes
    ensures NonEmpty(Select(naxes, req))
  {
  }

  /** Before clamping, a window of size `d >= 0` spans exactly `d` pixels, for any centre. */
  lemma AxisSpan(c: int, d: int)
    requires d >= 0
    ensures AxisLast(c, d) - AxisFirst(c, d) + 1 == d
  {
  }

  /**
   * In windowed mode with a positive requested size, the unclamped section
   * spans the cut-down size `min(dims, naxes)` on each axis, which never
   * exceeds the axis length.
   */
  lemma WindowedUnclampedExtent(naxes: Pair, req: Request)
    requires ValidAxes(naxes)
    requires Windowed(req) && req.dims.value.x >= 1 && req.dims.value.y >= 1
    ensures Extent(Unclamped(naxes, req)) == WindowSize(naxes, req.dims.value)
    ensures 1 <= Extent(Unclamped(naxes, req)).x <= naxes.x
    ensures 1 <= Extent(Unclamped(naxes, req)).y <= naxes.y
  {
    var size := WindowSize(naxes, req.dims.value);
    var cen := Centre(size, req.cens);
    AxisSpan(cen.x, size.x);
    AxisSpan(cen.y, size.y);
  }

  /**
   * With no centre, one axis of size `d >= 1` starts at 1 when `d` is even
   * and at 0 when `d` is odd; after clamping it starts at 1 and ends at
   * `2 * (d / 2)`, so an odd size loses its last pixel.
   */
  lemma DefaultCentreAxis(n: int, d: int)
    requires 1 <= d <= n
    ensures d % 2 == 0 ==> AxisFirst(Half(d), d) == 1
    ensures d % 2 == 1 ==> AxisFirst(Half(d), d) == 0
    ensures ClampFirst(AxisFirst(Half(d), d), n) == 1
    ensures AxisLast(Half(d), d) == 2 * (d / 2)
  {
  }

  /** The whole-section form of `DefaultCentreAxis`. */
  lemma DefaultCentreSection(naxes: Pair, req: Request)
    requires ValidAxes(naxes)
    requires Windowed(req) && req.dims.value.x >= 1 && req.dims.value.y >= 1
    requires req.cens.None?
    ensures Select(naxes, req).fpixel == Pair(1, 1)
    ensures Extent(Select(naxes, req)) ==
      Pair(2 * (WindowSize(naxes, req.dims.value).x / 2), 2 * (WindowSize(naxes, req.dims.value).y / 2))
  {
    var size := WindowSize(naxes, req.dims.value);
    DefaultCentreAxis(naxes.x, size.x);
    DefaultCentreAxis(naxes.y, size.y);
  }

  /**
   * The exact effect of clamping on one axis with window size `1 <= d <= n`
   * and any centre `c`: the output size keeps `d` exactly when the first
   * pixel was already inside the image, shrinks when it was below 1, grows
   * past `d` when it was beyond `n` (the last pixel is not clamped), and is
   * at least 1 exactly when the last pixel is at least 1.
   */
  lemma ClampedAxisExtent(n: int, d: int, c: int)
    requires 1 <= d <= n
    ensures var f0 := AxisFirst(c, d);
            var e := AxisLast(c, d) - ClampFirst(f0, n) + 1;
            && (e == d <==> 1 <= f0 <= n)
            && (e < d <==> f0 < 1)
            && (e > d <==> f0 > n)
            && (e >= 1 <==> AxisLast(c, d) >= 1)
  {
    AxisSpan(c, d);
  }

  /**
   * A windowed request with a positive size yields a non-empty section
   * exactly when its last pixel is at least 1 on both axes.
   */
  lemma WindowedNonEmptyIff(naxes: Pair, req: Request)
    requires ValidAxes(naxes)
    requires Windowed(req) && req.dims.value.x >= 1 && req.dims.value.y >= 1
    ensures NonEmpty(Select(naxes, req)) <==>
      Select(naxes, req).lpixel.x >= 1 && Select(naxes, req).lpixel.y >= 1
  {
    var size := WindowSize(naxes, req.dims.value);
    var cen := Centre(size, req.cens);
    ClampedAxisExtent(naxes.x, size.x, cen.x);
    ClampedAxisExtent(naxes.y, size.y, cen.y);
  }

  /**
   * One axis with a negative window size `d` (the C test only refuses 0):
   * the first pixel lies past the last, and the axis is non-empty exactly
   * when clamping pulls the first pixel back to `n` and the last pixel is
   * at least `n`.
   */
  lemma NegativeAxisExtent(n: int, d: int, c: int)
    requires n >= 1 && d <= -1
    ensures var e := AxisLast(c, d) - ClampFirst(AxisFirst(c, d), n) + 1;
            e >= 1 <==> AxisLast(c, d) >= n
  {
  }

  /**
   * A windowed request of either sign yields a non-empty section exactly
   * when, on each axis, the last pixel is at least 1 for a positive size
   * and at least the axis length for a negative size.
   */
  lemma WindowedNonEmptyAnySize(naxes: Pair, req: Request)
    requires ValidAxes(naxes)
    requires Windowed(req)
    ensures var s := Select(naxes, req);
            var d := req.dims.value;
            NonEmpty(s) <==>
              && (if d.x >= 1 then s.lpixel.x >= 1 else s.lpixel.x >= naxes.x)
              && (if d.y >= 1 then s.lpixel.y >= 1 else s.lpixel.y >= naxes.y)
  {
    var size := WindowSize(naxes, req.dims.value);
    var cen := Centre(size, req.cens);
    if req.dims.value.x >= 1 {
      ClampedAxisExtent(naxes.x, size.x, cen.x);
    } else {
      NegativeAxisExtent(naxes.x, size.x, cen.x);
    }
    if req.dims.value.y >= 1 {
      ClampedAxisExtent(naxes.y, size.y, cen.y);
    } else {
      NegativeAxisExtent(naxes.y, size.y, cen.y);
    }
  }

  /**
   * A negative size can leave a section empty although its last pixel is
   * inside the image: with a 10 x 10 image, a -4 x -4 request centred on
   * (5, 5) runs from (7, 7) to (3, 3).
   */
  lemma NegativeSizeEmptySection()
    ensures var s := Select(Pair(10, 10), Request(Some(Pair(-4, -4)), Some(Pair(5, 5))));
            && s == Corners(Pair(7, 7), Pair(3, 3))
            && !NonEmpty(s)
  {
  }

  /**
   * A centre far to the right pushes the window past the image edge: with a
   * 10 x 10 image, a 4 x 4 request centred on (100, 5) reads columns 10 to
   * 102, 93 pixels wide.
   */
  lemma FarCentreOverrunsImage()
    ensures var s := Select(Pair(10, 10), Request(Some(Pair(4, 4)), Some(Pair(100, 5))));
            s == Corners(Pair(10, 4), Pair(102, 7)) && Extent(s) == Pair(93, 4)
  {
  }

  /**
   * A centre far below and to the left inverts both axes: with a 10 x 10
   * image, a 4 x 4 request centred on (-100, -100) has its first pixel
   * clamped to (1, 1) but its last left at (-98, -98), so both extents are
   * -98 and their product, the pixel count the C code allocates for, is
   * positive.
   */
  lemma NegativeCentreInvertsSection()
    ensures var s := Select(Pair(10, 10), Request(Some(Pair(4, 4)), Some(Pair(-100, -100))));
            && s == Corners(Pair(1, 1), Pair(-98, -98))
            && Extent(s) == Pair(-98, -98)
            && !NonEmpty(s)
            && Extent(s).x * Extent(s).y == 9604
  {
  }
}

=== FILE: wrappers.dfy ===
/** Failure-carrying values used for the NULL returns of the C code. */
module Wrappers {

  /** A value that may be absent, like a C pointer that may be NULL. */
  datatype Option<+T> = None | Some(value: T)

  /** Either a value or the reason there is none. */
  datatype Result<+R, +E> = Success(value: R) | Failure(error: E)
}
